=== FILE: README.md ===
# Scoreboard: a verified model of the score bookkeeping

Scoreboard is a small iOS app for keeping multi-round scores in a tabletop
game. The user names a game, picks whether a high or a low total wins, adds
players, enters scores in a grid of rounds by players, and ends the game to
see the winner or winners. All the game state lives in one shared
`GameSettings` object. The game-creation screen (`CreateGameView`) and the
score grid screen (`GameView`) change it through a handful of private methods.

This project models those methods and the state they share, and proves that
every one of them keeps the bookkeeping invariant (`GameSettings.Valid`):

- there is always at least one round;
- every round has one entry per player, and there is one total per player;
- each player's total equals the sum of their column (`Grid.Tallied`);
- player names are distinct;
- there are at most 25 players;
- the game name is at most 20 characters and the name field at most 8.

Files and modules:

- `wrappers.dfy` (`Wrappers`): `Option`, which stands for Swift's `Optional`, with `??` as `GetOr`.
- `text.dfy` (`Text`): whitespace trimming, the length cap that the `didSet`
  observers apply, Swift's `Int(String)` and the decimal rendering `"\(n)"`.
- `grid.dfy` (`Grid`): the score grid as values. It defines column sums,
  `remove(atOffsets:)` and a zero column for a new player, and proves how each
  grid change moves the column sums.
- `create_game.dfy` (`CreateGame`): two classes. `GameSettings` holds the
  fields, the invariant and the truncating setters. `CreateGameView` has
  `AddPlayer`, `DeletePlayer` and `StartGame`.
- `game.dfy` (`Game`): the winning score and the winners as functions. The
  class `GameView` has `AddRound`, `DeleteRound`, the context-menu guard,
  `UpdateScore` and `FindWinners`.

The views keep a reference to the shared settings (`const settings`). Each
method's `modifies` clause names exactly the fields it writes.

Behaviour of the Swift code worth knowing:

- `DeleteRound` takes the 1-based round label shown on screen and removes
  index `round - 1`. It never reports an error. The context-menu action checks
  that more than one round exists before calling it
  (`Game.GameView.DeleteRoundFromMenu`).
- Deleting players takes a set of positions, as `remove(atOffsets:)` does. The
  positions must be in range, because Swift traps otherwise. There is no
  out-of-range error result.
- A player name is capped at 8 characters as it is typed, and again when the
  trimmed name is written back. Trimming happens when "Add +" is pressed.
- `FindWinners` reads `totals[0]`, so it needs at least one player. The grid
  screen can only be reached after `StartGame` has seen one.
- `game_in_progress` starts false, and nothing in the live code sets it.

## Model

| member | source | states |
|---|---|---|
| `Text.LeadingWhitespace` | Scoreboard/Scoreboard/CreateGameView.swift:74 | the count of characters trimmed from the front is a run of whitespace that stops at the first non-whitespace character |
| `Text.TrailingWhitespace` | Scoreboard/Scoreboard/CreateGameView.swift:74 | the count of characters trimmed from the back is a run of whitespace that stops at the last non-whitespace character |
| `Text.Trim` | Scoreboard/Scoreboard/CreateGameView.swift:74 | `trimmingCharacters(in: .whitespacesAndNewlines)` on the name field (and at :101 on the game name) never lengthens the text; `TrimSlice`, `TrimDropsWhitespace`, `TrimEnds` and `TrimEmpty` below state what it keeps and drops |
| `Text.TrimSlice` | Scoreboard/Scoreboard/CreateGameView.swift:74 | the trimmed name is the contiguous slice of the input between the leading and the trailing whitespace, so it is never longer than the input |
| `Text.TrimDropsWhitespace` | Scoreboard/Scoreboard/CreateGameView.swift:74 | every character trimmed away, before or after the slice kept, is whitespace |
| `Text.TrimEnds` | Scoreboard/Scoreboard/CreateGameView.swift:101 | a non-empty trimmed name neither starts nor ends with whitespace |
| `Text.TrimEmpty` | Scoreboard/Scoreboard/CreateGameView.swift:74-76 | the trimmed name is empty exactly when the input is all whitespace, which is when the name is refused as invalid |
| `Text.Truncate` | Scoreboard/Scoreboard/CreateGameView.swift:14-29 | the capped field is a prefix of what was assigned, is at most the cap long, is unchanged when already short enough and exactly the cap long otherwise |
| `Text.TruncateIdempotent` | Scoreboard/Scoreboard/CreateGameView.swift:14-29 | capping an already capped value changes nothing |
| `Text.ParseInt` | Scoreboard/Scoreboard/GameView.swift:118 | `Int(text)` succeeds only on non-empty text that starts with a sign or a digit, continues with digits only and fits in 64 bits; in range, plain and `+`-prefixed digit strings give their decimal value and `-`-prefixed ones its negation |
| `Text.ParseOutOfRange` | Scoreboard/Scoreboard/GameView.swift:118 | a digit string whose value exceeds the 64-bit range parses as `nil` bare, after `+`, and after `-` when it is also below the minimum |
| `Text.ParseShowInt` | Scoreboard/Scoreboard/GameView.swift:118 | parsing the decimal rendering of any 64-bit integer gives that integer back |
| `Text.ShowInt` | Scoreboard/Scoreboard/GameView.swift:221 | `"\(n)"` for a total (and at :268 for a cell) is non-empty, starts with `-` exactly for negative numbers, and is otherwise all digits |
| `Grid.Zeros` | Scoreboard/Scoreboard/GameView.swift:94-97 | the new round holds one zero per player |
| `Grid.ColSumAppendRow` | Scoreboard/Scoreboard/GameView.swift:99 | appending a round adds its entries to the column sums |
| `Grid.ColSumRemoveRow` | Scoreboard/Scoreboard/GameView.swift:106-112 | removing round `i` subtracts that round's entry from each column sum |
| `Grid.ColSumUpdateCell` | Scoreboard/Scoreboard/GameView.swift:114-125 | overwriting one cell moves its column's sum by new minus old and leaves every other column's sum alone |
| `Grid.ColSumWithZeroColumn` | Scoreboard/Scoreboard/CreateGameView.swift:85-90 | appending a zero to every round keeps the grid rectangular, keeps the old column sums and gives the new column sum 0 |
| `Grid.WithZeroColumn` | Scoreboard/Scoreboard/CreateGameView.swift:88-90 | every round gains exactly one entry, a trailing 0, and keeps its earlier entries |
| `Grid.Kept` | Scoreboard/Scoreboard/CreateGameView.swift:63-69 | the positions that survive `remove(atOffsets:)` are exactly those in range and not in the offsets, in increasing order |
| `Grid.RemoveAt` | Scoreboard/Scoreboard/CreateGameView.swift:64-67 | `remove(atOffsets:)` keeps the elements at the positions `Kept` lists, in order; `RemoveAtMembers`, `RemoveAtDistinct` and `WinnersInRosterOrder` state its properties |
| `Grid.RemoveAtMembers` | Scoreboard/Scoreboard/CreateGameView.swift:64-67 | every element left after `remove(atOffsets:)` comes from a position not removed, and every element at a position not removed is still there |
| `Grid.KeptLength` | Scoreboard/Scoreboard/CreateGameView.swift:63-69 | exactly one position is removed per in-range offset |
| `Grid.KeptSameBelow` | Scoreboard/Scoreboard/CreateGameView.swift:64 | which positions survive depends only on the offsets that are in range |
| `Grid.RemoveAtDistinct` | Scoreboard/Scoreboard/CreateGameView.swift:64 | removing players keeps the remaining names distinct |
| `Grid.RemoveColumns` | Scoreboard/Scoreboard/CreateGameView.swift:66-68 | every round loses the same positions, `RemoveAt(round, offsets)`, and the number of rounds is unchanged; `ColSumRemoveColumns` gives the resulting column sums |
| `Grid.ColSumRemoveColumns` | Scoreboard/Scoreboard/CreateGameView.swift:63-69 | after removing the same positions from every round, the grid is rectangular and each remaining column sums to what the same player's column did before |
| `Grid.TalliedAppendZeros` | Scoreboard/Scoreboard/GameView.swift:92-103 | a round of zeros keeps every total equal to its column sum |
| `Grid.TalliedRemoveRow` | Scoreboard/Scoreboard/GameView.swift:106-112 | deleting a round and subtracting its entries from the totals keeps every total equal to its column sum |
| `Grid.SubtractRow` | Scoreboard/Scoreboard/GameView.swift:108-110 | each total is reduced by exactly the deleted round's entry for that player, one total per player |
| `Grid.TalliedUpdateCell` | Scoreboard/Scoreboard/GameView.swift:114-125 | the delta update of one total after overwriting one cell keeps every total equal to its column sum |
| `Grid.TalliedWithZeroColumn` | Scoreboard/Scoreboard/CreateGameView.swift:85-90 | a new player with total 0 and a 0 in every round keeps every total equal to its column sum |
| `Grid.TalliedRemoveColumns` | Scoreboard/Scoreboard/CreateGameView.swift:63-69 | removing the same positions from totals and rounds keeps totals equal to column sums, over one player fewer per removed position |
| `CreateGame.GameSettings.constructor` | Scoreboard/Scoreboard/CreateGameView.swift:11-35 | a new game has no players, no totals, one empty round, high score wins, not in progress, and satisfies the invariant |
| `CreateGame.GameSettings.SetGameName` | Scoreboard/Scoreboard/CreateGameView.swift:14-20 | assigning the game name stores it capped at 20 characters and keeps the invariant |
| `CreateGame.GameSettings.SetCurrentPlayer` | Scoreboard/Scoreboard/CreateGameView.swift:23-29 | assigning the name field stores it capped at 8 characters and keeps the invariant |
| `CreateGame.AddPlayerCheck` | Scoreboard/Scoreboard/CreateGameView.swift:76-84 | a name is accepted exactly when it is non-empty, not yet on the roster and the roster is not full; an empty name is reported as invalid, a non-empty name on the roster as already added, and only a new non-empty name on a full roster as too many players |
| `CreateGame.CreateGameView.constructor` | Scoreboard/Scoreboard/CreateGameView.swift:48-53 | the creation screen starts with fresh, valid settings (empty game name and name field, no players, no totals, one empty round, high score wins, not in progress) and blank messages |
| `CreateGame.CreateGameView.DeletePlayer` | Scoreboard/Scoreboard/CreateGameView.swift:63-69 | the same positions leave the roster, the totals and every round, and the invariant still holds |
| `CreateGame.CreateGameView.AddPlayer` | Scoreboard/Scoreboard/CreateGameView.swift:72-96 | the field is trimmed. A refused name leaves roster, totals and grid unchanged and records the reason. An accepted name is appended with total 0 and a 0 in every round, announced, and the field is cleared. The invariant holds either way |
| `CreateGame.CreateGameView.AppendPlayer` | Scoreboard/Scoreboard/CreateGameView.swift:86-90 | a name not on a roster with room left is appended with total 0, every round gains a trailing 0 and the earlier entries are unchanged, and the invariant holds |
| `CreateGame.CreateGameView.StartGame` | Scoreboard/Scoreboard/CreateGameView.swift:98-128 | the game name is stored trimmed. Both checks always run and each sets its message. The result is true exactly when there is a player and the trimmed name is non-empty |
| `Game.ScoreEntryNonNumeric` | Scoreboard/Scoreboard/GameView.swift:118 | text that is empty, or has a non-digit anywhere other than a leading sign of a longer text (such as `1.5`, `1a2`, `--5` or `-`), is entered as 0 |
| `Game.ScoreEntryOutOfRange` | Scoreboard/Scoreboard/GameView.swift:118 | a digit string too large for 64 bits, bare or after `+`, is entered as 0 |
| `Game.ScoreEntry` | Scoreboard/Scoreboard/GameView.swift:118 | `Int(self.new_score) ?? 0` always yields a 64-bit value; the lemmas around it say which texts give 0 and which give their number |
| `Game.ScoreEntryShown` | Scoreboard/Scoreboard/GameView.swift:118 | typing the number a cell shows stores exactly that number |
| `Game.WinningScore` | Scoreboard/Scoreboard/GameView.swift:135-151 | the winning score is one of the totals and is the maximum (high score wins) or the minimum (low score wins) |
| `Game.WinningScoreStep` | Scoreboard/Scoreboard/GameView.swift:138-151 | scanning one more total replaces the best so far only when it is strictly better |
| `Game.Winners` | Scoreboard/Scoreboard/GameView.swift:153-158 | the tie collection: `WinnersStep`, `WinnersInRosterOrder` and `WinnersMembers` state that it is the roster filtered to the players whose total equals the winning score, in roster order |
| `Game.WinnersStep` | Scoreboard/Scoreboard/GameView.swift:154-158 | scanning one more player appends them exactly when their total equals the winning score |
| `Game.WinnersInRosterOrder` | Scoreboard/Scoreboard/GameView.swift:153-158 | the winners are the roster with every player whose total differs from the winning score removed, so they appear in roster order |
| `Game.WinnersMembers` | Scoreboard/Scoreboard/GameView.swift:153-158 | a name is a winner exactly when some player with that name has the winning total |
| `Game.WinnersOfGame` | Scoreboard/Scoreboard/GameView.swift:132-159 | with at least one player and distinct names, the winners are never empty, and player `i` wins exactly when their total is the maximum (or minimum) total, so all tied players appear |
| `Game.ScanForWinners` | Scoreboard/Scoreboard/GameView.swift:135-158 | the two scans over the totals and the roster return exactly `Winners` of the roster for the maximum (high score wins) or minimum (low score wins) total |
| `Game.TieExample` | Scoreboard/Scoreboard/GameView.swift:132-159 | totals 10, 10, 5 with high score wins give winners A and B |
| `Game.LowScoreExample` | Scoreboard/Scoreboard/GameView.swift:132-159 | totals 10, 3, 3 with low score wins give winners B and C |
| `Game.GameView.constructor` | Scoreboard/Scoreboard/GameView.swift:82-90 | the grid screen shares the given settings and starts with no selection, an empty entry field and no winners |
| `Game.GameView.SelectCell` | Scoreboard/Scoreboard/GameView.swift:276-279 | tapping a cell selects its round and player |
| `Game.GameView.EditorShown` | Scoreboard/Scoreboard/GameView.swift:184-187 | the guard that shows the score-entry field; when it holds on a valid game, the selected round exists and the selected player has a cell in it and a total, which is what `UpdateScore` requires of a non-empty entry |
| `Game.GameView.AddRound` | Scoreboard/Scoreboard/GameView.swift:92-103 | with players, exactly one round of zeros is appended, one per player, and earlier rounds and all totals are unchanged. With no players nothing changes. The invariant holds |
| `Game.GameView.DeleteRound` | Scoreboard/Scoreboard/GameView.swift:106-112 | the round labelled `round` (index `round - 1`) is removed, the other rounds keep their order, each total loses that round's entry, and the invariant holds |
| `Game.GameView.DeleteRoundFromMenu` | Scoreboard/Scoreboard/GameView.swift:241-245 | with only one round nothing changes; otherwise the round is deleted as above, so the grid never loses its last round |
| `Game.GameView.UpdateScore` | Scoreboard/Scoreboard/GameView.swift:114-130 | an empty entry changes no score and no total. Otherwise the selected cell becomes `Int(text) ?? 0` and only that player's total moves, by new minus old. The selection and entry field are cleared either way, and the invariant holds |
| `Game.GameView.FindWinners` | Scoreboard/Scoreboard/GameView.swift:132-159 | the winners are exactly the players, in roster order, whose total equals the maximum total (high score wins) or the minimum total (low score wins) |

## Left out

- The SwiftUI view bodies, layout constants, fonts and colours: declarative presentation with no state logic.
- `TrackableScrollView` and `ScrollOffsetPreferenceKey`: floating-point scroll geometry and framework callbacks.
- Navigation: `NavigationLink`, `presentationMode`, the `TEST_NAV` bindings, `ready_to_start`, `game_over` and the commented-out navigation-bar code. These are screen flow, not game state.
- `rounds_id = UUID()` in `AddRound`: a random view-refresh token, not game state.
- The exact wording of the player and game-name messages. They are modelled as the `PlayerError` values and the `gameNameMissing` flag.
- `IsGameNameUnique`: an empty placeholder with no behaviour.
- Combine/`@Published` change notification. The `didSet` truncation is modelled as the setters `SetGameName` and `SetCurrentPlayer`.
- The high/low toggle and the text-field bindings are plain field assignments from the screen and are not separate members.
- Characters stand for Swift `Character`s (grapheme clusters). Whitespace is the common subset of `.whitespacesAndNewlines`: space, tab, line feed, vertical tab, form feed, carriage return, U+0085, U+00A0, U+2028 and U+2029.
- `Int(String)` is modelled for ASCII digits with an optional sign and the 64-bit range. Anything else, including out-of-range values, parses as `nil` and so enters as 0.
- Game.GameView.DeleteRound: totals are unbounded integers. Swift traps when `totals[p] - scores[round - 1][p]` overflows 64 bits (a total of `Int.max` built from rounds `Int.max`, `-Int.max`, `Int.max`, with the middle round deleted); the model subtracts without that trap.
- Game.GameView.UpdateScore: totals are unbounded integers. Swift traps when `totals[p] - current + new` overflows 64 bits; the model does not.
- Game.GameView.DeleteRound: requires at least one player and more than one round. With no players Swift's `0...players.count - 1` traps, and the screen only calls it while another round remains.
- Game.GameView.UpdateScore: requires the selection to be in range when the entry is non-empty. The entry field only exists while the selection is in range.

=== FILE: create_game.dfy ===
/**
 * The shared game state (`GameSettings`) and the game-creation screen's
 * operations on it: adding and deleting players and checking that the game
 * can start.
 */
module CreateGame {
  import opened Wrappers
  import opened Text
  import opened Grid

  /** `GameSettings.max_game_name_length`. */
  const MaxGameNameLength: nat := 20
  /** `GameSettings.max_player_name_length`. */
  const MaxPlayerNameLength: nat := 8
  /** `CreateGameView.max_players`. */
  const MaxPlayers: nat := 25

  /**
   * The state every screen shares by reference. Player `p`'s column in every
   * round, `totals[p]` and `players[p]` all belong to the same player.
   */
  class GameSettings {
    var gameName: string
    var highScoreWins: bool
    var players: seq<string>
    /** The text in the player-name field of the creation screen. */
    var currentPlayer: string
    var totals: seq<int>
    var scores: seq<seq<int>>
    var gameInProgress: bool

    /**
     * What every operation keeps: at least one round, a rectangular grid with
     * one column per player, each total equal to its column's sum, distinct
     * names, at most 25 players, and both text fields within their caps.
     */
    ghost predicate Valid()
      reads this
    {
      && |scores| >= 1
      && Tallied(totals, scores, |players|)
      && Distinct(players)
      && |players| <= MaxPlayers
      && |gameName| <= MaxGameNameLength
      && |currentPlayer| <= MaxPlayerNameLength
    }

    /** A new game: no players, no totals, and one empty round. */
    constructor ()
      ensures Valid()
      ensures gameName == [] && highScoreWins && players == [] && currentPlayer == []
      ensures totals == [] && scores == [[]] && !gameInProgress
    {
      gameName := [];
      highScoreWins := true;
      players := [];
      currentPlayer := [];
      totals := [];
      scores := [[]];
      gameInProgress := false;
    }

    /** Assigning `game_name`; its `didSet` cuts it to 20 characters. */
    method SetGameName(s: string)
      requires Valid()
      modifies this`gameName
      ensures Valid()
      ensures gameName == Truncate(s, MaxGameNameLength)
    {
      gameName := s;
      if |gameName| > MaxGameNameLength {
        gameName := gameName[..MaxGameNameLength];
      }
    }

    /** Assigning `current_player`; its `didSet` cuts it to 8 characters. */
    method SetCurrentPlayer(s: string)
      requires Valid()
      modifies this`currentPlayer
      ensures Valid()
      ensures currentPlayer == Truncate(s, MaxPlayerNameLength)
    {
      currentPlayer := s;
      if |currentPlayer| > MaxPlayerNameLength {
        currentPlayer := currentPlayer[..MaxPlayerNameLength];
      }
    }
  }

  /** The error line of the players section of the creation screen. */
  datatype PlayerError =
    | NoPlayerError      // the line is blank
    | NameInvalid        // the trimmed name is empty
    | NameAlreadyAdded   // the trimmed name is already on the roster
    | TooManyPlayers     // the roster already holds the maximum
    | NoPlayersAdded     // the game cannot start without players

  /**
   * The checks `AddPlayer` makes on the trimmed name, in their order: empty
   * first, then already on the roster, then roster full.
   */
  function AddPlayerCheck(name: string, players: seq<string>): (e: PlayerError)
    ensures e in {NoPlayerError, NameInvalid, NameAlreadyAdded, TooManyPlayers}
    ensures e == NoPlayerError <==> name != [] && name !in players && |players| != MaxPlayers
    ensures name == [] ==> e == NameInvalid
    ensures name != [] && name in players ==> e == NameAlreadyAdded
    ensures name != [] && name !in players && |players| == MaxPlayers ==> e == TooManyPlayers
  {
    if |name| == 0 then NameInvalid
    else if name in players then NameAlreadyAdded
    else if |players| == MaxPlayers then TooManyPlayers
    else NoPlayerError
  }

  /** The game-creation screen and its private operations on the shared settings. */
  class CreateGameView {
    const settings: GameSettings
    var playerError: PlayerError
    /** The success line: `Some(name)` announces that `name` joined the game. */
    var playerAddSuccess: Option<string>
    /** Whether the game-name error line asks for a name. */
    var gameNameMissing: bool

    constructor ()
      ensures fresh(settings) && settings.Valid()
      ensures settings.players == [] && settings.scores == [[]] && settings.totals == []
      ensures settings.highScoreWins && !settings.gameInProgress
      ensures settings.gameName == [] && settings.currentPlayer == []
      ensures playerError == NoPlayerError && playerAddSuccess == None && !gameNameMissing
    {
      settings := new GameSettings();
      playerError := NoPlayerError;
      playerAddSuccess := None;
      gameNameMissing := false;
    }

    /**
     * Swipe-to-delete on the player list: the same positions leave the roster,
     * the totals and every round, so the three stay aligned.
     */
    method DeletePlayer(offsets: set<nat>)
      requires settings.Valid()
      requires forall i :: i in offsets ==> i < |settings.players|
      modifies settings`players, settings`totals, settings`scores
      ensures settings.Valid()
      ensures settings.players == RemoveAt(old(settings.players), offsets)
      ensures settings.totals == RemoveAt(old(settings.totals), offsets)
      ensures settings.scores == RemoveColumns(old(settings.scores), offsets)
    {
      ghost var n := |settings.players|;
      ghost var oldPlayers, oldTotals, oldScores := settings.players, settings.totals, settings.scores;
      settings.players := RemoveAt(settings.players, offsets);
      settings.totals := RemoveAt(settings.totals, offsets);
      var rounds := settings.scores;
      var roundIndex := 0;
      while roundIndex < |rounds|
        modifies {}
        invariant 0 <= roundIndex <= |rounds| == |oldScores|
        invariant forall r :: 0 <= r < roundIndex ==> rounds[r] == RemoveAt(oldScores[r], offsets)
        invariant forall r :: roundIndex <= r < |oldScores| ==> rounds[r] == oldScores[r]
      {
        rounds := rounds[roundIndex := RemoveAt(rounds[roundIndex], offsets)];
        roundIndex := roundIndex + 1;
      }
      assert rounds == RemoveColumns(oldScores, offsets);
      settings.scores := rounds;
      assert settings.Valid() by {
        TalliedRemoveColumns(oldTotals, oldScores, n, offsets);
        RemoveAtDistinct(oldPlayers, offsets);
      }
    }

    /**
     * The "Add +" button: trims the name field, then either records why the
     * name is refused, or appends the player with a zero total and a zero in
     * every round, announces them and clears the field.
     */
    method AddPlayer()
      requires settings.Valid()
      modifies settings`players, settings`totals, settings`scores, settings`currentPlayer
      modifies this`playerError, this`playerAddSuccess
      ensures settings.Valid()
      ensures playerError == AddPlayerCheck(Trim(old(settings.currentPlayer)), old(settings.players))
      ensures playerError == NoPlayerError ==>
                && settings.players == old(settings.players) + [Trim(old(settings.currentPlayer))]
                && settings.totals == old(settings.totals) + [0]
                && settings.scores == WithZeroColumn(old(settings.scores))
                && playerAddSuccess == Some(Trim(old(settings.currentPlayer)))
                && settings.currentPlayer == []
      ensures playerError != NoPlayerError ==>
                && settings.players == old(settings.players)
                && settings.totals == old(settings.totals)
                && settings.scores == old(settings.scores)
                && playerAddSuccess == old(playerAddSuccess)
                && settings.currentPlayer == Trim(old(settings.currentPlayer))
    {
      TrimSlice(settings.currentPlayer);
      settings.SetCurrentPlayer(Trim(settings.currentPlayer));
      var name := settings.currentPlayer;

      if |name| == 0 {
        playerError := NameInvalid;
      } else if name in settings.players {
        playerError := NameAlreadyAdded;
      } else if |settings.players| == MaxPlayers {
        playerError := TooManyPlayers;
      } else {
        AppendPlayer(name);
        playerError := NoPlayerError;
        playerAddSuccess := Some(name);
        settings.SetCurrentPlayer([]);
      }
    }

    /**
     * The roster update of a successful "Add +": the name joins the roster,
     * with a zero total and a zero in every round.
     */
    method AppendPlayer(name: string)
      requires settings.Valid()
      requires name !in settings.players && |settings.players| < MaxPlayers
      modifies settings`players, settings`totals, settings`scores
      ensures settings.Valid()
      ensures settings.players == old(settings.players) + [name]
      ensures settings.totals == old(settings.totals) + [0]
      ensures settings.scores == WithZeroColumn(old(settings.scores))
    {
      ghost var n := |settings.players|;
      ghost var oldPlayers, oldTotals, oldScores := settings.players, settings.totals, settings.scores;
      settings.players := settings.players + [name];
      settings.totals := settings.totals + [0];
      var roundIndex := 0;
      while roundIndex < |settings.scores|
        modifies settings`scores
        invariant 0 <= roundIndex <= |settings.scores| == |oldScores|
        invariant forall r :: 0 <= r < roundIndex ==> settings.scores[r] == oldScores[r] + [0]
        invariant forall r :: roundIndex <= r < |oldScores| ==> settings.scores[r] == oldScores[r]
      {
        settings.scores := settings.scores[roundIndex := settings.scores[roundIndex] + [0]];
        roundIndex := roundIndex + 1;
      }
      assert settings.scores == WithZeroColumn(oldScores);
      TalliedWithZeroColumn(oldTotals, oldScores, n);
      assert forall i :: 0 <= i < n ==> settings.players[i] == oldPlayers[i];
    }

    /**
     * The "Start Game" button's check: trims the game name, then runs both the
     * players check and the name check, recording each one's message, and says
     * whether the game may start.
     */
    method StartGame() returns (start: bool)
      requires settings.Valid()
      modifies settings`gameName, settings`currentPlayer
      modifies this`playerError, this`playerAddSuccess, this`gameNameMissing
      ensures settings.Valid()
      ensures settings.gameName == Trim(old(settings.gameName))
      ensures start <==> |settings.players| >= 1 && settings.gameName != []
      ensures |settings.players| == 0 ==>
                && playerError == NoPlayersAdded
                && playerAddSuccess == old(playerAddSuccess)
                && settings.currentPlayer == old(settings.currentPlayer)
      ensures |settings.players| > 0 ==>
                playerError == NoPlayerError && playerAddSuccess == None && settings.currentPlayer == []
      ensures gameNameMissing <==> settings.gameName == []
    {
      start := true;

      TrimSlice(settings.gameName);
      settings.SetGameName(Trim(settings.gameName));

      if |settings.players| == 0 {
        playerError := NoPlayersAdded;
        start := false;
      } else {
        playerError := NoPlayerError;
        playerAddSuccess := None;
        settings.SetCurrentPlayer([]);
      }

      if |settings.gameName| == 0 {
        gameNameMissing := true;
        start := false;
      } else {
        gameNameMissing := false;
      }
    }
  }
}

=== FILE: game.dfy ===
/**
 * The score grid screen's operations on the shared settings: adding and
 * deleting rounds, committing an edited cell, and finding the winners.
 */
module Game {
  import opened Text
  import opened Grid
  import opened CreateGame

  /** The score a committed entry stands for: `Int(text) ?? 0`. */
  function ScoreEntry(text: string): (score: int)
    ensures IntMin <= score <= IntMax
  {
    ParseInt(text).GetOr(0)
  }

  /**
   * Text with a character at `k` that cannot stand there in a decimal integer
   * (anything but a digit, or a sign that is not the first of several
   * characters) is entered as zero.
   */
  lemma ScoreEntryNonNumeric(text: string, k: nat)
    requires text == [] || (k < |text| && !IsDigit(text[k])
                            && !(k == 0 && |text| > 1 && (text[0] == '+' || text[0] == '-')))
    ensures ScoreEntry(text) == 0
  {
  }

  /** A decimal integer too large for 64 bits is entered as zero. */
  lemma ScoreEntryOutOfRange(digits: string)
    requires digits != [] && AllDigits(digits) && DigitsValue(digits) > IntMax
    ensures ScoreEntry(digits) == 0 && ScoreEntry("+" + digits) == 0
  {
    ParseOutOfRange(digits);
  }

  /** Re-entering the number a cell shows stores that number. */
  lemma ScoreEntryShown(n: int)
    requires IntMin <= n <= IntMax
    ensures ScoreEntry(ShowInt(n)) == n
  {
    ParseShowInt(n);
  }

  // ---------------------------------------------------------------------
  // Winners.

  /**
   * The total that wins: the first total, replaced by each later one that is
   * strictly higher (high score wins) or strictly lower (low score wins).
   */
  function WinningScore(totals: seq<int>, highScoreWins: bool): (w: int)
    requires |totals| >= 1
    ensures w in totals
    ensures forall i :: 0 <= i < |totals| ==>
              if highScoreWins then totals[i] <= w else w <= totals[i]
  {
    if |totals| == 1 then totals[0]
    else
      var best := WinningScore(totals[..|totals| - 1], highScoreWins);
      var last := totals[|totals| - 1];
      if (highScoreWins && last > best) || (!highScoreWins && last < best) then last else best
  }

  /** The players whose total is `w`, in roster order. */
  function Winners(players: seq<string>, totals: seq<int>, w: int): (winners: seq<string>)
    requires |players| == |totals|
  {
    if players == [] then []
    else
      var n := |players|;
      Winners(players[..n - 1], totals[..n - 1], w) + (if totals[n - 1] == w then [players[n - 1]] else [])
  }

  /** One more total considered: it replaces the best so far only if strictly better. */
  lemma WinningScoreStep(totals: seq<int>, i: nat, highScoreWins: bool)
    requires 1 <= i < |totals|
    ensures var best := WinningScore(totals[..i], highScoreWins);
            WinningScore(totals[..i + 1], highScoreWins)
            == if (highScoreWins && totals[i] > best) || (!highScoreWins && totals[i] < best)
               then totals[i] else best
  {
    assert totals[..i + 1][..i] == totals[..i];
  }

  /** One more player considered: they are appended exactly when their total is `w`. */
  lemma WinnersStep(players: seq<string>, totals: seq<int>, w: int, i: nat)
    requires |players| == |totals| && i < |players|
    ensures Winners(players[..i + 1], totals[..i + 1], w)
            == Winners(players[..i], totals[..i], w) + (if totals[i] == w then [players[i]] else [])
  {
    assert players[..i + 1][..i] == players[..i];
    assert totals[..i + 1][..i] == totals[..i];
  }

  /** The positions whose total is not `w`. */
  function Losers(totals: seq<int>, w: int): set<nat> {
    set i: nat | i < |totals| && totals[i] != w
  }

  /**
   * The winners are the roster with every player whose total is not `w`
   * removed: all players at `w`, ties included, each once, in roster order.
   */
  lemma {:induction false} WinnersInRosterOrder(players: seq<string>, totals: seq<int>, w: int)
    requires |players| == |totals|
    ensures Winners(players, totals, w) == RemoveAt(players, Losers(totals, w))
  {
    if players != [] {
      var n := |players|;
      var ps, ts := players[..n - 1], totals[..n - 1];
      WinnersInRosterOrder(ps, ts, w);
      KeptSameBelow(n - 1, Losers(ts, w), Losers(totals, w));
      var keep := Kept(n - 1, Losers(totals, w));
      assert Kept(n, Losers(totals, w)) == keep + (if n - 1 in Losers(totals, w) then [] else [n - 1]);
      assert RemoveAt(ps, Losers(ts, w)) == seq(|keep|, k requires 0 <= k < |keep| => ps[keep[k]]);
    }
  }

  /** A player is among the winners exactly when some position holding them has total `w`. */
  lemma {:induction false} WinnersMembers(players: seq<string>, totals: seq<int>, w: int, x: string)
    requires |players| == |totals|
    ensures x in Winners(players, totals, w) <==>
            exists i :: 0 <= i < |players| && players[i] == x && totals[i] == w
  {
    if players != [] {
      var n := |players|;
      WinnersMembers(players[..n - 1], totals[..n - 1], w, x);
      if x in Winners(players[..n - 1], totals[..n - 1], w) {
        var i :| 0 <= i < n - 1 && players[..n - 1][i] == x && totals[..n - 1][i] == w;
        assert players[i] == x && totals[i] == w;
      }
      if i :| 0 <= i < n && players[i] == x && totals[i] == w {
        if i < n - 1 {
          assert players[..n - 1][i] == x && totals[..n - 1][i] == w;
        }
      }
    }
  }

  /**
   * With distinct names and at least one player, the winners are never empty,
   * and player `i` is a winner exactly when their total is the winning one.
   */
  lemma WinnersOfGame(players: seq<string>, totals: seq<int>, highScoreWins: bool)
    requires |players| == |totals| >= 1 && Distinct(players)
    ensures var w := WinningScore(totals, highScoreWins);
            && Winners(players, totals, w) != []
            && forall i :: 0 <= i < |players| ==>
                 (players[i] in Winners(players, totals, w) <==> totals[i] == w)
  {
    var w := WinningScore(totals, highScoreWins);
    var j :| 0 <= j < |totals| && totals[j] == w;
    WinnersMembers(players, totals, w, players[j]);
    forall i | 0 <= i < |players|
      ensures players[i] in Winners(players, totals, w) <==> totals[i] == w
    {
      WinnersMembers(players, totals, w, players[i]);
    }
  }

  /**
   * The scans `FindWinners` makes over the roster: one for the winning total
   * (the highest or the lowest, by the game's rule), then one collecting, in
   * roster order, every player who has it.
   */
  method ScanForWinners(players: seq<string>, totals: seq<int>, highScoreWins: bool)
    returns (winners: seq<string>)
    requires |players| == |totals| >= 1
    ensures winners == Winners(players, totals, WinningScore(totals, highScoreWins))
  {
    winners := [];
    var n := |players|;
    var winningScore := totals[0];
    assert totals[..1] == [totals[0]];

    if highScoreWins {
      for playerIndex := 0 to n
        invariant winningScore == WinningScore(totals[..if playerIndex == 0 then 1 else playerIndex], true)
      {
        if playerIndex > 0 { WinningScoreStep(totals, playerIndex, true); }
        if totals[playerIndex] > winningScore {
          winningScore := totals[playerIndex];
        }
      }
    } else {
      for playerIndex := 0 to n
        invariant winningScore == WinningScore(totals[..if playerIndex == 0 then 1 else playerIndex], false)
      {
        if playerIndex > 0 { WinningScoreStep(totals, playerIndex, false); }
        if totals[playerIndex] < winningScore {
          winningScore := totals[playerIndex];
        }
      }
    }
    assert totals[..n] == totals;
    assert Winners(players[..0], totals[..0], winningScore) == [];

    for playerIndex := 0 to n
      invariant winners == Winners(players[..playerIndex], totals[..playerIndex], winningScore)
    {
      WinnersStep(players, totals, winningScore, playerIndex);
      if totals[playerIndex] == winningScore {
        winners := winners + [players[playerIndex]];
      }
    }
    assert players[..n] == players;
  }

  /** Tied high scores both win. */
  lemma TieExample()
    ensures Winners(["A", "B", "C"], [10, 10, 5], WinningScore([10, 10, 5], true)) == ["A", "B"]
  {
    var ps, ts := ["A", "B", "C"], [10, 10, 5];
    assert WinningScore(ts, true) == 10 by {
      assert ts[..2] == [10, 10] && ts[..2][..1] == [10];
    }
    assert ps[..2] == ["A", "B"] && ps[..2][..1] == ["A"] && ps[..2][..1][..0] == [];
    assert ts[..2] == [10, 10] && ts[..2][..1] == [10] && ts[..2][..1][..0] == [];
    assert Winners(["A"], [10], 10) == ["A"];
    assert Winners(["A", "B"], [10, 10], 10) == ["A", "B"];
  }

  /** With low score wins, the tied lowest totals win. */
  lemma LowScoreExample()
    ensures Winners(["A", "B", "C"], [10, 3, 3], WinningScore([10, 3, 3], false)) == ["B", "C"]
  {
    var ps, ts := ["A", "B", "C"], [10, 3, 3];
    assert WinningScore(ts, false) == 3 by {
      assert ts[..2] == [10, 3] && ts[..2][..1] == [10];
    }
    assert ps[..2] == ["A", "B"] && ps[..2][..1] == ["A"] && ps[..2][..1][..0] == [];
    assert ts[..2] == [10, 3] && ts[..2][..1] == [10] && ts[..2][..1][..0] == [];
    assert Winners(["A"], [10], 3) == [];
    assert Winners(["A", "B"], [10, 3], 3) == ["B"];
  }

  // ---------------------------------------------------------------------
  // The grid screen.

  class GameView {
    const settings: GameSettings
    var selectedRound: int
    var selectedPlayer: int
    /** The text in the score-entry field. */
    var newScore: string
    var winners: seq<string>

    constructor (settings: GameSettings)
      ensures this.settings == settings
      ensures selectedRound == -1 && selectedPlayer == -1 && newScore == [] && winners == []
    {
      this.settings := settings;
      selectedRound := -1;
      selectedPlayer := -1;
      newScore := [];
      winners := [];
    }

    /** The condition under which the score-entry field, and so its commit, is shown. */
    predicate EditorShown(): (shown: bool)
      reads this, settings
      ensures shown && settings.Valid() ==>
                && 0 <= selectedRound < |settings.scores|
                && 0 <= selectedPlayer < |settings.scores[selectedRound]|
                && selectedPlayer < |settings.totals|
    {
      && selectedRound > -1
      && selectedPlayer > -1
      && selectedPlayer < |settings.players|
      && selectedRound < |settings.scores|
    }

    /** Tapping the cell of `player` in round index `round`. */
    method SelectCell(round: int, player: int)
      modifies this`selectedRound, this`selectedPlayer
      ensures selectedRound == round && selectedPlayer == player
    {
      selectedRound := round;
      selectedPlayer := player;
    }

    /** "New round +": with at least one player, a round of zeros goes at the end. */
    method AddRound()
      requires settings.Valid()
      modifies settings`scores
      ensures settings.Valid()
      ensures |settings.players| > 0 ==> settings.scores == old(settings.scores) + [Zeros(|settings.players|)]
      ensures |settings.players| == 0 ==> settings.scores == old(settings.scores)
    {
      if |settings.players| > 0 {
        var newRound: seq<int> := [];
        for i := 0 to |settings.players|
          invariant newRound == Zeros(i)
        {
          newRound := newRound + [0];
        }
        TalliedAppendZeros(settings.totals, settings.scores, |settings.players|);
        settings.scores := settings.scores + [newRound];
      }
    }

    /**
     * Deletes the round labelled `round` (labels count from 1), taking each of
     * its entries off the matching total. Only offered while more than one
     * round exists, and only after the game has players.
     */
    method DeleteRound(round: int)
      requires settings.Valid() && |settings.players| >= 1
      requires 1 <= round <= |settings.scores| && |settings.scores| > 1
      modifies settings`totals, settings`scores
      ensures settings.Valid()
      ensures settings.scores == old(settings.scores)[..round - 1] + old(settings.scores)[round..]
      ensures settings.totals == SubtractRow(old(settings.totals), old(settings.scores)[round - 1])
    {
      var roundIndex := round - 1;
      ghost var oldTotals := settings.totals;
      for playerIndex := 0 to |settings.players|
        modifies settings`totals
        invariant |settings.totals| == |oldTotals|
        invariant forall p :: 0 <= p < playerIndex ==>
                    settings.totals[p] == oldTotals[p] - settings.scores[roundIndex][p]
        invariant forall p :: playerIndex <= p < |oldTotals| ==> settings.totals[p] == oldTotals[p]
      {
        settings.totals := settings.totals[playerIndex := settings.totals[playerIndex] - settings.scores[roundIndex][playerIndex]];
      }
      TalliedRemoveRow(oldTotals, settings.scores, |settings.players|, roundIndex);
      settings.scores := settings.scores[..roundIndex] + settings.scores[roundIndex + 1..];
    }

    /** The round label's "Delete" menu item: it deletes only when another round remains. */
    method DeleteRoundFromMenu(round: int)
      requires settings.Valid() && |settings.players| >= 1
      requires 1 <= round <= |settings.scores|
      modifies settings`totals, settings`scores
      ensures settings.Valid()
      ensures old(|settings.scores|) == 1 ==>
                settings.scores == old(settings.scores) && settings.totals == old(settings.totals)
      ensures old(|settings.scores|) > 1 ==>
                && settings.scores == old(settings.scores)[..round - 1] + old(settings.scores)[round..]
                && settings.totals == SubtractRow(old(settings.totals), old(settings.scores)[round - 1])
    {
      if |settings.scores| > 1 {
        DeleteRound(round);
      }
    }

    /**
     * Committing the score field: non-empty text replaces the selected cell
     * with `Int(text) ?? 0` and moves that player's total by the difference;
     * empty text changes nothing. Either way the selection and field clear.
     */
    method UpdateScore()
      requires settings.Valid()
      requires newScore != [] ==> EditorShown()
      modifies this`selectedRound, this`selectedPlayer, this`newScore
      modifies settings`totals, settings`scores
      ensures settings.Valid()
      ensures selectedRound == -1 && selectedPlayer == -1 && newScore == []
      ensures old(newScore) == [] ==>
                settings.scores == old(settings.scores) && settings.totals == old(settings.totals)
      ensures old(newScore) != [] ==>
                var r, p, v := old(selectedRound), old(selectedPlayer), ScoreEntry(old(newScore));
                && settings.scores == old(settings.scores)[r := old(settings.scores)[r][p := v]]
                && settings.totals == old(settings.totals)[p := old(settings.totals)[p] - old(settings.scores)[r][p] + v]
    {
      if |newScore| > 0 {
        var r, p := selectedRound, selectedPlayer;
        var currentScore := settings.scores[r][p];
        var score := ParseInt(newScore).GetOr(0);
        TalliedUpdateCell(settings.totals, settings.scores, |settings.players|, r, p, score);
        settings.totals := settings.totals[p := settings.totals[p] - currentScore];
        settings.scores := settings.scores[r := settings.scores[r][p := score]];
        settings.totals := settings.totals[p := settings.totals[p] + score];
      }
      selectedPlayer := -1;
      selectedRound := -1;
      newScore := [];
    }

    /**
     * "End Game": finds the winning total for the game's rule and lists, in
     * roster order, every player who has it.
     */
    method FindWinners()
      requires settings.Valid() && |settings.players| >= 1
      modifies this`winners
      ensures winners == Winners(settings.players, settings.totals,
                                 WinningScore(settings.totals, settings.highScoreWins))
    {
      winners := ScanForWinners(settings.players, settings.totals, settings.highScoreWins);
    }
  }
}

=== FILE: grid.dfy ===
/**
 * The score grid as values: `scores[r][p]` is player `p`'s score in round `r`
 * (0-based), and a player's total is the sum of their column. The lemmas here
 * say how each change the app makes to the grid moves those column sums.
 */
module Grid {

  /** Every round has exactly `n` entries, one per player. */
  predicate Rectangular(rows: seq<seq<int>>, n: nat) {
    forall r :: 0 <= r < |rows| ==> |rows[r]| == n
  }

  /** Every round has an entry for player `p`. */
  predicate HasColumn(rows: seq<seq<int>>, p: nat) {
    forall r :: 0 <= r < |rows| ==> p < |rows[r]|
  }

  /** Player `p`'s score summed over all rounds. */
  function ColSum(rows: seq<seq<int>>, p: nat): (sum: int)
    requires HasColumn(rows, p)
  {
    if rows == [] then 0 else ColSum(rows[..|rows| - 1], p) + rows[|rows| - 1][p]
  }

  /** Names (or any values) that occur at most once. */
  predicate Distinct<T(==)>(s: seq<T>) {
    forall i, j :: 0 <= i < j < |s| ==> s[i] != s[j]
  }

  /** A sequence of `n` zeros: a freshly added round. */
  function Zeros(n: nat): (r: seq<int>)
    ensures |r| == n && forall k :: 0 <= k < n ==> r[k] == 0
  {
    seq(n, _ => 0)
  }

  /** Column sums split over consecutive blocks of rounds. */
  lemma {:induction false} ColSumConcat(a: seq<seq<int>>, b: seq<seq<int>>, p: nat)
    requires HasColumn(a, p) && HasColumn(b, p)
    ensures HasColumn(a + b, p)
    ensures ColSum(a + b, p) == ColSum(a, p) + ColSum(b, p)
  {
    if b == [] {
      assert a + b == a;
    } else {
      var b' := b[..|b| - 1];
      assert (a + b)[..|a + b| - 1] == a + b';
      ColSumConcat(a, b', p);
    }
  }

  /** Adding a round adds its entries to the column sums. */
  lemma ColSumAppendRow(rows: seq<seq<int>>, row: seq<int>, p: nat)
    requires HasColumn(rows, p) && p < |row|
    ensures HasColumn(rows + [row], p)
    ensures ColSum(rows + [row], p) == ColSum(rows, p) + row[p]
  {
    assert (rows + [row])[..|rows|] == rows;
  }

  /**
   * Removing round `i` takes that round's entry out of every column sum; the
   * remaining rounds keep their order.
   */
  lemma ColSumRemoveRow(rows: seq<seq<int>>, i: nat, p: nat)
    requires i < |rows| && HasColumn(rows, p)
    ensures HasColumn(rows[..i] + rows[i + 1..], p)
    ensures ColSum(rows[..i] + rows[i + 1..], p) == ColSum(rows, p) - rows[i][p]
  {
    assert rows == rows[..i] + ([rows[i]] + rows[i + 1..]);
    ColSumConcat(rows[..i], [rows[i]] + rows[i + 1..], p);
    ColSumConcat([rows[i]], rows[i + 1..], p);
    ColSumConcat(rows[..i], rows[i + 1..], p);
    assert ColSum([rows[i]], p) == rows[i][p] by {
      assert [rows[i]][..0] == [];
    }
  }

  /**
   * Overwriting cell (r, q) with `v` moves column q's sum by `v` minus the old
   * entry and leaves every other column's sum alone.
   */
  lemma {:induction false} ColSumUpdateCell(rows: seq<seq<int>>, r: nat, q: nat, v: int, p: nat)
    requires r < |rows| && q < |rows[r]| && HasColumn(rows, p)
    ensures HasColumn(rows[r := rows[r][q := v]], p)
    ensures ColSum(rows[r := rows[r][q := v]], p)
            == ColSum(rows, p) + (if p == q then v - rows[r][q] else 0)
  {
    var rows' := rows[r := rows[r][q := v]];
    var n := |rows|;
    if r == n - 1 {
      assert rows'[..n - 1] == rows[..n - 1];
    } else {
      assert rows'[..n - 1] == rows[..n - 1][r := rows[r][q := v]];
      ColSumUpdateCell(rows[..n - 1], r, q, v, p);
    }
  }

  // ---------------------------------------------------------------------
  // Adding a player: a zero is appended to every round.

  /** The grid with a zero appended to every round. */
  function WithZeroColumn(rows: seq<seq<int>>): (r: seq<seq<int>>)
    ensures |r| == |rows|
    ensures forall i :: 0 <= i < |r| ==> |r[i]| == |rows[i]| + 1 && r[i][..|rows[i]|] == rows[i] && r[i][|rows[i]|] == 0
  {
    seq(|rows|, i requires 0 <= i < |rows| => rows[i] + [0])
  }

  /**
   * Appending a zero column keeps the grid rectangular, leaves the existing
   * column sums as they were and gives the new column a sum of zero.
   */
  lemma {:induction false} ColSumWithZeroColumn(rows: seq<seq<int>>, n: nat)
    requires Rectangular(rows, n)
    ensures Rectangular(WithZeroColumn(rows), n + 1)
    ensures forall p :: 0 <= p < n ==> ColSum(WithZeroColumn(rows), p) == ColSum(rows, p)
    ensures ColSum(WithZeroColumn(rows), n) == 0
  {
    if rows != [] {
      var m := |rows|;
      assert WithZeroColumn(rows)[..m - 1] == WithZeroColumn(rows[..m - 1]);
      ColSumWithZeroColumn(rows[..m - 1], n);
    }
  }

  // ---------------------------------------------------------------------
  // Removing players: Swift's `remove(atOffsets:)`.

  /** The positions below `n` that are not in `offsets`, in increasing order. */
  function Kept(n: nat, offsets: set<nat>): (r: seq<nat>)
    ensures forall k :: 0 <= k < |r| ==> r[k] < n && r[k] !in offsets
    ensures forall i :: 0 <= i < n && i !in offsets ==> i in r
    ensures forall j, k :: 0 <= j < k < |r| ==> r[j] < r[k]
  {
    if n == 0 then [] else Kept(n - 1, offsets) + (if n - 1 in offsets then [] else [n - 1])
  }

  /** The offsets that name a position below `n`. */
  function OffsetsBelow(n: nat, offsets: set<nat>): set<nat> {
    set i | i in offsets && i < n
  }

  /** Exactly one position is dropped for each offset below `n`. */
  lemma {:induction false} KeptLength(n: nat, offsets: set<nat>)
    ensures |Kept(n, offsets)| + |OffsetsBelow(n, offsets)| == n
  {
    if n > 0 {
      KeptLength(n - 1, offsets);
      OffsetsBelowStep(n, offsets);
    }
  }

  lemma OffsetsBelowStep(n: nat, offsets: set<nat>)
    requires n > 0
    ensures |OffsetsBelow(n, offsets)|
            == |OffsetsBelow(n - 1, offsets)| + (if n - 1 in offsets then 1 else 0)
  {
    var below := OffsetsBelow(n - 1, offsets);
    if n - 1 in offsets {
      assert OffsetsBelow(n, offsets) == below + {n - 1};
    } else {
      assert OffsetsBelow(n, offsets) == below;
    }
  }

  /** `Kept` looks only at the offsets below `n`. */
  lemma {:induction false} KeptSameBelow(n: nat, a: set<nat>, b: set<nat>)
    requires forall i: nat :: i < n ==> (i in a <==> i in b)
    ensures Kept(n, a) == Kept(n, b)
  {
    if n > 0 {
      KeptSameBelow(n - 1, a, b);
    }
  }

  /** `s.remove(atOffsets: offsets)`: the elements at the other positions, in order. */
  function RemoveAt<T>(s: seq<T>, offsets: set<nat>): (r: seq<T>)
  {
    var keep := Kept(|s|, offsets);
    seq(|keep|, k requires 0 <= k < |keep| => s[keep[k]])
  }

  /**
   * Removing positions keeps exactly what was not removed: every remaining
   * element comes from a kept position, and every kept position's element
   * remains.
   */
  lemma RemoveAtMembers<T>(s: seq<T>, offsets: set<nat>)
    ensures forall k :: 0 <= k < |RemoveAt(s, offsets)| ==>
              exists i :: 0 <= i < |s| && i !in offsets && RemoveAt(s, offsets)[k] == s[i]
    ensures forall i :: 0 <= i < |s| && i !in offsets ==> s[i] in RemoveAt(s, offsets)
  {
    var keep := Kept(|s|, offsets);
    var r := RemoveAt(s, offsets);
    forall k | 0 <= k < |r|
      ensures exists i :: 0 <= i < |s| && i !in offsets && r[k] == s[i]
    {
      assert r[k] == s[keep[k]];
    }
    forall i | 0 <= i < |s| && i !in offsets
      ensures s[i] in r
    {
      var k :| 0 <= k < |keep| && keep[k] == i;
      assert r[k] == s[i];
    }
  }

  /** Removing positions from a list of distinct names leaves them distinct. */
  lemma RemoveAtDistinct<T>(s: seq<T>, offsets: set<nat>)
    requires Distinct(s)
    ensures Distinct(RemoveAt(s, offsets))
  {
    var keep := Kept(|s|, offsets);
    var r := RemoveAt(s, offsets);
    forall i, j | 0 <= i < j < |r| ensures r[i] != r[j] {
      assert keep[i] < keep[j];
    }
  }

  /** The grid with the given player positions removed from every round. */
  function RemoveColumns(rows: seq<seq<int>>, offsets: set<nat>): (r: seq<seq<int>>)
    ensures |r| == |rows|
    ensures forall i :: 0 <= i < |r| ==> r[i] == RemoveAt(rows[i], offsets)
  {
    seq(|rows|, i requires 0 <= i < |rows| => RemoveAt(rows[i], offsets))
  }

  /**
   * After removing columns the grid is still rectangular, and the q-th
   * remaining column sums to what the q-th kept column of the old grid did.
   */
  lemma {:induction false} ColSumRemoveColumns(rows: seq<seq<int>>, n: nat, offsets: set<nat>)
    requires Rectangular(rows, n)
    ensures Rectangular(RemoveColumns(rows, offsets), |Kept(n, offsets)|)
    ensures forall q :: 0 <= q < |Kept(n, offsets)| ==>
              ColSum(RemoveColumns(rows, offsets), q) == ColSum(rows, Kept(n, offsets)[q])
  {
    if rows != [] {
      var m := |rows|;
      assert RemoveColumns(rows, offsets)[..m - 1] == RemoveColumns(rows[..m - 1], offsets);
      ColSumRemoveColumns(rows[..m - 1], n, offsets);
    }
  }

  // ---------------------------------------------------------------------
  // The bookkeeping invariant and the operations that keep it.

  /**
   * `totals` holds one running total per player of an `n`-player grid, and
   * each equals the sum of that player's column.
   */
  predicate Tallied(totals: seq<int>, scores: seq<seq<int>>, n: nat) {
    && |totals| == n
    && Rectangular(scores, n)
    && forall p :: 0 <= p < n ==> totals[p] == ColSum(scores, p)
  }

  /** The totals with each entry of `row` taken off the matching total. */
  function SubtractRow(totals: seq<int>, row: seq<int>): (r: seq<int>)
    requires |row| == |totals|
    ensures |r| == |totals|
    ensures forall p :: 0 <= p < |r| ==> r[p] + row[p] == totals[p]
  {
    seq(|totals|, p requires 0 <= p < |totals| => totals[p] - row[p])
  }

  /** A new round of zeros changes no total. */
  lemma TalliedAppendZeros(totals: seq<int>, scores: seq<seq<int>>, n: nat)
    requires Tallied(totals, scores, n)
    ensures Tallied(totals, scores + [Zeros(n)], n)
  {
    forall p | 0 <= p < n ensures totals[p] == ColSum(scores + [Zeros(n)], p) {
      ColSumAppendRow(scores, Zeros(n), p);
    }
  }

  /** Deleting round `i` and subtracting its entries from the totals keeps them tallied. */
  lemma TalliedRemoveRow(totals: seq<int>, scores: seq<seq<int>>, n: nat, i: nat)
    requires Tallied(totals, scores, n) && i < |scores|
    ensures Tallied(SubtractRow(totals, scores[i]), scores[..i] + scores[i + 1..], n)
  {
    var rest := scores[..i] + scores[i + 1..];
    assert Rectangular(rest, n) by {
      forall r | 0 <= r < |rest| ensures |rest[r]| == n {
        if r < i { assert rest[r] == scores[r]; } else { assert rest[r] == scores[r + 1]; }
      }
    }
    forall p | 0 <= p < n ensures SubtractRow(totals, scores[i])[p] == ColSum(rest, p) {
      ColSumRemoveRow(scores, i, p);
    }
  }

  /** Overwriting one cell and moving its player's total by the difference keeps them tallied. */
  lemma TalliedUpdateCell(totals: seq<int>, scores: seq<seq<int>>, n: nat, r: nat, q: nat, v: int)
    requires Tallied(totals, scores, n) && r < |scores| && q < n
    ensures Tallied(totals[q := totals[q] - scores[r][q] + v], scores[r := scores[r][q := v]], n)
  {
    var totals' := totals[q := totals[q] - scores[r][q] + v];
    forall p | 0 <= p < n ensures totals'[p] == ColSum(scores[r := scores[r][q := v]], p) {
      ColSumUpdateCell(scores, r, q, v, p);
    }
  }

  /** A new player with a zero total and a zero in every round keeps the totals tallied. */
  lemma TalliedWithZeroColumn(totals: seq<int>, scores: seq<seq<int>>, n: nat)
    requires Tallied(totals, scores, n)
    ensures Tallied(totals + [0], WithZeroColumn(scores), n + 1)
  {
    ColSumWithZeroColumn(scores, n);
  }

  /**
   * Removing the same positions from the totals and from every round keeps
   * them tallied, over one player fewer per removed position.
   */
  lemma TalliedRemoveColumns(totals: seq<int>, scores: seq<seq<int>>, n: nat, offsets: set<nat>)
    requires Tallied(totals, scores, n)
    ensures Tallied(RemoveAt(totals, offsets), RemoveColumns(scores, offsets), |Kept(n, offsets)|)
    ensures |Kept(n, offsets)| + |OffsetsBelow(n, offsets)| == n
  {
    ColSumRemoveColumns(scores, n, offsets);
    KeptLength(n, offsets);
  }
}

=== FILE: text.dfy ===
/**
 * The string handling the score keeper relies on: trimming whitespace,
 * capping a text field's length, and Swift's `Int(String)` conversion
 * together with the decimal rendering `"\(n)"` it inverts.
 *
 * Strings are sequences of characters; a character here stands for one
 * Swift `Character` (grapheme cluster).
 */
module Text {
  import opened Wrappers

  /** The characters `.whitespacesAndNewlines` removes, restricted to the common ones. */
  predicate IsWhitespace(c: char) {
    c == ' ' || c == '\t' || c == '\n' || c == '\r' || c == '\U{0B}' || c == '\U{0C}'
    || c == '\U{85}' || c == '\U{A0}' || c == '\U{2028}' || c == '\U{2029}'
  }

  predicate AllWhitespace(s: string) {
    forall k :: 0 <= k < |s| ==> IsWhitespace(s[k])
  }

  /** How many whitespace characters `s` starts with. */
  function LeadingWhitespace(s: string): (n: nat)
    ensures n <= |s|
    ensures forall k :: 0 <= k < n ==> IsWhitespace(s[k])
    ensures n < |s| ==> !IsWhitespace(s[n])
  {
    if s != [] && IsWhitespace(s[0]) then 1 + LeadingWhitespace(s[1..]) else 0
  }

  /** How many whitespace characters `s` ends with. */
  function TrailingWhitespace(s: string): (n: nat)
    ensures n <= |s|
    ensures forall k :: |s| - n <= k < |s| ==> IsWhitespace(s[k])
    ensures n < |s| ==> !IsWhitespace(s[|s| - n - 1])
  {
    if s != [] && IsWhitespace(s[|s| - 1]) then 1 + TrailingWhitespace(s[..|s| - 1]) else 0
  }

  /** Swift's `trimmingCharacters(in: .whitespacesAndNewlines)`. */
  function Trim(s: string): (r: string)
    ensures |r| <= |s|
  {
    var e := s[..|s| - TrailingWhitespace(s)];
    e[LeadingWhitespace(e)..]
  }

  /** Trimming keeps the slice `s[lo..hi]` between the leading and the trailing whitespace. */
  lemma TrimSlice(s: string)
    ensures var hi := |s| - TrailingWhitespace(s);
            var lo := LeadingWhitespace(s[..hi]);
            lo <= hi && Trim(s) == s[lo..hi]
    ensures |Trim(s)| <= |s|
  {
    var hi := |s| - TrailingWhitespace(s);
    var e := s[..hi];
    assert e[LeadingWhitespace(e)..] == s[LeadingWhitespace(e)..hi];
  }

  /** Everything trimming drops is whitespace. */
  lemma TrimDropsWhitespace(s: string)
    ensures var hi := |s| - TrailingWhitespace(s);
            var lo := LeadingWhitespace(s[..hi]);
            && (forall k :: 0 <= k < lo ==> IsWhitespace(s[k]))
            && (forall k :: hi <= k < |s| ==> IsWhitespace(s[k]))
  {
    var hi := |s| - TrailingWhitespace(s);
    var e := s[..hi];
    forall k | 0 <= k < LeadingWhitespace(e) ensures IsWhitespace(s[k]) {
      assert s[k] == e[k];
    }
  }

  /** What trimming keeps neither starts nor ends with whitespace. */
  lemma TrimEnds(s: string)
    ensures Trim(s) != [] ==> !IsWhitespace(Trim(s)[0]) && !IsWhitespace(Trim(s)[|Trim(s)| - 1])
  {
    TrimSlice(s);
    var hi := |s| - TrailingWhitespace(s);
    var e := s[..hi];
    var lo := LeadingWhitespace(e);
    if lo < hi {
      assert Trim(s)[0] == e[lo];
      assert Trim(s)[|Trim(s)| - 1] == s[hi - 1];
    }
  }

  /** A trimmed name is empty exactly when the name was all whitespace. */
  lemma TrimEmpty(s: string)
    ensures Trim(s) == [] <==> AllWhitespace(s)
  {
    TrimSlice(s);
    TrimDropsWhitespace(s);
    var hi := |s| - TrailingWhitespace(s);
    var lo := LeadingWhitespace(s[..hi]);
    if lo < hi {
      assert Trim(s)[0] == s[lo];
    } else {
      assert hi == 0;
    }
  }

  /**
   * What a `didSet` observer capping a field at `n` characters leaves in it:
   * the longest prefix of `s` that is at most `n` long.
   */
  function Truncate(s: string, n: nat): (r: string)
    ensures r <= s && |r| <= n
    ensures |s| <= n ==> r == s
    ensures |s| > n ==> |r| == n
  {
    if |s| > n then s[..n] else s
  }

  /** Capping twice is capping once. */
  lemma TruncateIdempotent(s: string, n: nat)
    ensures Truncate(Truncate(s, n), n) == Truncate(s, n)
  {
  }

  // ---------------------------------------------------------------------
  // Swift's Int(String) on a 64-bit device, and the rendering "\(n)".

  const IntMin: int := -0x8000_0000_0000_0000
  const IntMax: int := 0x7FFF_FFFF_FFFF_FFFF

  predicate IsDigit(c: char) {
    '0' <= c <= '9'
  }

  predicate AllDigits(s: string) {
    forall k :: 0 <= k < |s| ==> IsDigit(s[k])
  }

  /** The number a run of decimal digits spells. */
  function DigitsValue(s: string): (v: nat)
    requires AllDigits(s)
  {
    if s == [] then 0 else DigitsValue(s[..|s| - 1]) * 10 + (s[|s| - 1] as int - '0' as int)
  }

  /**
   * `Int(s)`: an optional `+` or `-` followed by one or more ASCII digits and
   * nothing else, whose value fits in 64 bits; anything else is `nil`.
   */
  function ParseInt(s: string): (r: Option<int>)
    ensures r.Some? ==> s != [] && IntMin <= r.value <= IntMax
    ensures r.Some? ==> forall k :: 1 <= k < |s| ==> IsDigit(s[k])
    ensures r.Some? ==> IsDigit(s[|s| - 1])
    ensures r.Some? ==> IsDigit(s[0]) || s[0] == '+' || s[0] == '-'
    ensures AllDigits(s) && s != [] && DigitsValue(s) <= IntMax ==> r == Some(DigitsValue(s))
    ensures |s| > 1 && s[0] == '-' && AllDigits(s[1..]) && DigitsValue(s[1..]) <= -IntMin
            ==> r == Some(0 - DigitsValue(s[1..]))
    ensures |s| > 1 && s[0] == '+' && AllDigits(s[1..]) && DigitsValue(s[1..]) <= IntMax
            ==> r == Some(DigitsValue(s[1..]))
  {
    if s == [] then None
    else
      var negative := s[0] == '-';
      var digits := if s[0] == '-' || s[0] == '+' then s[1..] else s;
      if digits == [] || !AllDigits(digits) then None
      else
        var v: int := if negative then 0 - DigitsValue(digits) else DigitsValue(digits);
        if IntMin <= v <= IntMax then Some(v) else None
  }

  /** Digits whose value does not fit in 64 bits parse as `nil`, whatever their sign. */
  lemma ParseOutOfRange(digits: string)
    requires digits != [] && AllDigits(digits) && DigitsValue(digits) > IntMax
    ensures ParseInt(digits) == None
    ensures ParseInt("+" + digits) == None
    ensures DigitsValue(digits) > -IntMin ==> ParseInt("-" + digits) == None
  {
    assert ("+" + digits)[1..] == digits;
    assert ("-" + digits)[1..] == digits;
  }

  /** The digit character for `d`. */
  function DigitChar(d: nat): char
    requires d < 10
  {
    ('0' as int + d) as char
  }

  /** The decimal digits of `n`, without leading zeros. */
  function ShowNat(n: nat): (r: string)
    ensures r != [] && AllDigits(r)
  {
    if n < 10 then [DigitChar(n)] else ShowNat(n / 10) + [DigitChar(n % 10)]
  }

  /** `"\(n)"`: how a score is rendered in the grid and in the totals row. */
  function ShowInt(n: int): (r: string)
    ensures r != [] && (r[0] == '-' <==> n < 0)
    ensures AllDigits(if n < 0 then r[1..] else r)
  {
    if n < 0 then "-" + ShowNat(-n) else ShowNat(n)
  }

  lemma {:induction false} DigitsValueShowNat(n: nat)
    ensures DigitsValue(ShowNat(n)) == n
  {
    if n >= 10 {
      var s := ShowNat(n);
      assert s[..|s| - 1] == ShowNat(n / 10);
      DigitsValueShowNat(n / 10);
    }
  }

  /** Typing back the number a cell shows gives that number. */
  lemma ParseShowInt(n: int)
    requires IntMin <= n <= IntMax
    ensures ParseInt(ShowInt(n)) == Some(n)
  {
    if n < 0 {
      ParseShowNegative(n);
    } else {
      DigitsValueShowNat(n);
    }
  }

  lemma ParseShowNegative(n: int)
    requires IntMin <= n < 0
    ensures ParseInt(ShowInt(n)) == Some(n)
  {
    var s := ShowInt(n);
    assert s[0] == '-' && s[1..] == ShowNat(-n);
    DigitsValueShowNat(-n);
    assert DigitsValue(s[1..]) == -n;
  }
}

=== FILE: wrappers.dfy ===
/** A value that may be absent: Swift's `Optional`. */
module Wrappers {

  datatype Option<+T> = None | Some(value: T) {

    /** Swift's `??` operator: the wrapped value, or `default` when absent. */
    function GetOr(default: T): T {
      match this
      case Some(v) => v
      case None => default
    }
  }
}
